=== FILE: README.md ===
# simra engine core in Dafny

A model of the runtime core of the simra 2D game library (Go): the collision
registry and per-tick check of the engine instance, the scene-driver sequence,
the sprite container's slot pool, and the per-frame transform pass that places
every in-use sprite on screen.

- `common.dfy` (`Common`): `Option`, `Result`, and `Subsequence`, an
  order-preserving subsequence predicate.
- `collision.dfy` (`Collision`): colliders as identities with an `(x, y, w, h)`
  box in Go `int`s. `Half` is Go's truncating `/ 2`. The four corners, the
  closed-box test and `Collides` follow the source. A registration is a
  `CollisionMap` object with constant fields, so `v != c` compares pointers
  as the Go code does. `Filtered` is the filter of `removeCollisionMap` as
  written. `WithoutColliders` is what `RemoveCollisionListener` does with the
  fresh record it passes. `FirstHit` is the first-hit search.
- `engine.dfy` (`Engine`): class `Simra` with the current driver, the
  registration list and `calls`. `calls` is the ordered trace of calls the
  engine makes to code outside the model: driver, listeners, renderer, touch
  and sprite peers. Each method states its new list and the calls it appends.
  `SceneLifecycle` and `RegistrationsAcrossScenes` are client methods that
  run the class from a fresh instance.
- `spritepool.dfy` (`SpritePool`): the `spriteNodePairs` slot list
  `(sprite, node, inuse)`. `AddSlot` and `RemoveSlot` are its specification
  functions, and class `SpriteContainer` updates the list in place, with
  lemmas on duplicate adds, reuse, growth, monotone size and the
  one-active-slot-per-sprite invariant. The three container tests are
  methods whose `ensures` give the slot counts the tests check.
- `transform.dfy` (`ScreenTransform`): the translate / rotate-about-centre /
  scale parameters over `real`, and `Apply`, the loop of `GLPeer.apply`,
  proved to emit `Placements`: one transform per drawn slot, in pool order.

The collision list is a package-level variable in the Go code (`comap`; the
struct field of the same name is never used). It is modelled as a field of
the single engine instance.

Two behaviours of the engine are modelled as the code has them:
- `RemoveCollisionListener(c1, c2)` drops every registration whose first
  collider is `c1` or whose second collider is `c2`, not only the exact pair
  (`RemovalDropsSharedFirstCollider`).
- `SetScene`'s own steps (simra/engine.go:92-102) leave the collision list
  untouched: they do not clear it. `SetScene`'s frame keeps `comap`, and
  `RegistrationsAcrossScenes` shows a registration firing after a scene
  change. What the new driver's `Initialize` registers is host code and is
  not modelled (see "Left out").

## Model

| member | source | states |
|---|---|---|
| `Collision.Half` | simra/engine.go:174-177 | Go's `w/2` on `int` truncates toward zero: for `a >= 0` the result is `floor(a/2)`, for `a < 0` it is `ceil(a/2)`, and it is never of the opposite sign to `a` (`Half(1) == Half(-1) == 0`) |
| `Collision.CornersOfBox` | simra/engine.go:174-177 | each corner pairs one of the two x-edges `x ± w/2` with one of the two y-edges `y ± h/2`; a box of non-negative size contains its own corners |
| `Collision.SpanIsHalfSize` | simra/engine.go:179-180 | for a size that is not negative, a coordinate passes the `>= centre - size/2 && <= centre + size/2` test exactly when it is within half the size of the centre; for a size below -1 nothing passes |
| `Collision.BoxIsHalfSize` | simra/engine.go:179-180 | a box of non-negative size holds exactly the points within half its width and half its height of its centre |
| `Collision.PointColliderCollides` | simra/engine.go:171-198 | a first collider with width and height between -1 and 1 has all four corners at its centre, so it collides exactly when its centre lies in the second box |
| `Collision.CollidesIffAxes` | simra/engine.go:171-198 | a corner of `c1` lies in `c2`'s closed box iff one of `c1`'s two x-edges lies in `c2`'s x-span and one of its two y-edges lies in `c2`'s y-span |
| `Collision.OverlappingBoxesCollide` | simra/engine.go:174-198 | boxes [0,10]² and [5,15]² collide (corner (10,10) of the first lies in the second) |
| `Collision.DisjointBoxesDoNotCollide` | simra/engine.go:174-198 | boxes [0,10]² and [20,30]² do not collide |
| `Collision.CollisionIsAsymmetric` | simra/engine.go:174-198 | only `c1`'s corners are tested: a small box inside a large one collides with it, the large one does not collide with the small one |
| `Collision.OddSizeTruncates` | simra/engine.go:174-198 | with integer halving a width-3 box reaches one unit from its centre: it touches the point (1, 1) and misses the 1x1 box at (2, 2) that exact halving would reach |
| `Collision.CollisionMap.constructor` | simra/engine.go:34-38 | a new registration record holds exactly the two colliders and the listener it is built with, and never changes afterwards |
| `Collision.Kept` | simra/engine.go:150 | an entry is dropped if it shares the first collider with `c`, or shares the second, or is `c` itself: any one of the three alone suffices |
| `Collision.Filtered` | simra/engine.go:146-156 | the rebuilt list is no longer than the old one and holds only old entries that share neither collider with `c` and are not `c` itself |
| `Collision.FilteredIsSubsequence` | simra/engine.go:146-156 | the filter preserves the order of the entries it keeps |
| `Collision.FilteredCount` | simra/engine.go:146-156 | every entry the predicate keeps survives with its multiplicity; every other entry is gone |
| `Collision.WithoutColliders` | simra/engine.go:203-209 | the list after `RemoveCollisionListener(c1, c2)` holds only old entries whose first collider is not `c1` and whose second is not `c2` |
| `Collision.WithoutCollidersIsSubsequence` | simra/engine.go:203-209 | removing by colliders keeps the survivors in registration order |
| `Collision.WithoutCollidersCount` | simra/engine.go:203-209 | removing by colliders drops every entry sharing `c1` or `c2` and keeps all others with their multiplicity |
| `Collision.FilteredByFreshRecord` | simra/engine.go:146-209 | for a record not in the list, as the one `RemoveCollisionListener` allocates, the `v != c` clause never matters: the filter depends on the two colliders alone |
| `Collision.RemovalDropsSharedFirstCollider` | simra/engine.go:150 | removing the pair (a, b) also drops a registration (a, x) with x != b |
| `Collision.FirstHit` | simra/engine.go:165-201 | the chosen index fires, no earlier registration fires, and `None` means none fires |
| `Collision.FirstOfSeveralHitsWins` | simra/engine.go:165-201 | when the first and third of three registrations fire, the first is chosen |
| `Engine.SceneChangeCalls` | simra/engine.go:91-105 | a scene change ends with the new driver's `Initialize`, called once; no `Drive`, `Initialize` or listener call comes before it |
| `Engine.Notification` | simra/engine.go:165-201 | a check makes no listener call iff no registration fires; otherwise exactly one, to the first firing registration's listener, with that registration's `(c1, c2)` |
| `Engine.TickCalls` | simra/engine.go:64-70 | a tick makes at most two calls, each a `Drive` or a listener call: `Drive` on the current driver first, only when one is set; the listener call, if any, last; the check runs even without a driver |
| `Engine.Simra.constructor` | simra/engine.go:53-58 | a new instance has no driver and no registrations |
| `Engine.Simra.AddCollisionListener` | simra/engine.go:137-144 | appends exactly one fresh record `(c1, c2, listener)` at the end, with no duplicate check; earlier entries are unchanged |
| `Engine.Simra.RemoveCollisionMap` | simra/engine.go:146-156 | the loop leaves exactly `Filtered(old list, c)` |
| `Engine.Simra.RemoveCollisionListener` | simra/engine.go:203-209 | the list becomes `WithoutColliders(old list, c1, c2)`, because the record passed is freshly allocated |
| `Engine.Simra.RemoveAllCollisionListener` | simra/engine.go:158-163 | the list is empty afterwards |
| `Engine.Simra.FirstCollision` | simra/engine.go:165-201 | the scan testing p1..p4 in turn returns the first registration whose predicate holds, or `None` when none does, and changes nothing |
| `Engine.Simra.CollisionCheckAndNotify` | simra/engine.go:165-201 | appends exactly `Notification(list, boxes)` to the trace and cannot change the list or the driver |
| `Engine.Simra.OnUpdate` | simra/engine.go:64-70 | appends exactly `TickCalls(driver, list, boxes)`: `Drive` (if a driver is set) before the check |
| `Engine.Simra.OnStopped` | simra/engine.go:72-77 | the driver becomes nil and the renderer is finalized |
| `Engine.Simra.SetScene` | simra/engine.go:89-105 | installs the driver and appends the tear-down calls then `Initialize(d)`; the registrations are untouched |
| `Engine.SceneLifecycle` | simra/engine.go:64-105 | after switching from `d1` to `d2`, a tick drives `d2` first and never `d1` and initializes nobody; after `onStopped`, a tick drives nobody and makes at most the one listener call |
| `Engine.RegistrationsAcrossScenes` | simra/engine.go:64-209 | a registration added before a scene change still fires after it (drive, then the listener call with `(a, b)`); after `RemoveCollisionListener(a, b)` a tick only drives |
| `SpritePool.FirstFree` | simra/peer/spritecontainer_test.go:69-96 | the slot reused is the first one not in use; `None` means every slot is in use |
| `SpritePool.FindActive` | simra/peer/spritecontainer_test.go:112-119 | finds the first in-use slot holding the sprite; `None` exactly when the sprite is not active |
| `SpritePool.AddSlot` | simra/peer/spritecontainer_test.go:40-119 | adding fails exactly when the sprite is already active; a successful add leaves it active, keeps every slot's node, and grows the list by at most one slot |
| `SpritePool.RemoveSlot` | simra/peer/spritecontainer_test.go:58-67 | removing keeps the slot count, every sprite and every node; at most one slot changes: the first in-use slot holding `s`, which is no longer in use |
| `SpritePool.AddDuplicateFails` | simra/peer/spritecontainer_test.go:112-119 | adding fails exactly when the sprite already holds an in-use slot |
| `SpritePool.AddPlacesSprite` | simra/peer/spritecontainer_test.go:40-96 | a successful add makes the sprite active and keeps every node; the slot count stays when a free slot exists and grows by exactly one otherwise; the only slot changed is the first free one |
| `SpritePool.RemoveClearsFlag` | simra/peer/spritecontainer_test.go:58-67 | under the pool invariant, the sprite is no longer active after it is removed |
| `SpritePool.RemoveInactiveIsIgnored` | simra/peer/spritecontainer_test.go:135-144 | removing a sprite that is not in use leaves the pool unchanged |
| `SpritePool.AddKeepsValid` | simra/peer/spritecontainer_test.go:99-119 | adding keeps the invariant that no sprite holds two in-use slots |
| `SpritePool.RemoveKeepsValid` | simra/peer/spritecontainer_test.go:122-144 | removing keeps that invariant |
| `SpritePool.RunNeverShrinks` | simra/peer/spritecontainer_test.go:36-97 | over any sequence of adds and removes the slot count never decreases and every existing slot keeps its node |
| `SpritePool.RunKeepsValid` | simra/peer/spritecontainer_test.go:36-144 | over any sequence of adds and removes no sprite ever holds two in-use slots |
| `SpritePool.SpriteContainer.constructor` | simra/peer/spritecontainer_test.go:37 | a new container has no slots, so it meets the pool invariant |
| `SpritePool.SpriteContainer.AddSprite` | simra/peer/spritecontainer_test.go:40-56 | returns the duplicate error and changes nothing exactly when `AddSlot` fails; otherwise leaves the slots `AddSlot` gives; keeps the pool invariant |
| `SpritePool.SpriteContainer.RemoveSprite` | simra/peer/spritecontainer_test.go:58-67 | leaves the slots `RemoveSlot` gives; keeps the pool invariant |
| `SpritePool.AddAndRemoveSprite` | simra/peer/spritecontainer_test.go:36-97 | the test's sequence succeeds at every add and sees slot counts 1, 2, 2, 2, 2, 2, 3 |
| `SpritePool.AddSpriteDuplicate` | simra/peer/spritecontainer_test.go:99-120 | a second add of the same sprite returns the error and the count stays 1 |
| `SpritePool.RemoveSpriteDuplicate` | simra/peer/spritecontainer_test.go:122-145 | a second remove is ignored; the count stays 1 and the slot is not in use |
| `ScreenTransform.TranslateX` | simra/peer/peer.go:257-258 | the x translation is the sprite's left edge: half the scaled width to the left of the scaled centre `X*scale + marginWidth/2` |
| `ScreenTransform.TranslateY` | simra/peer/peer.go:257-259 | the y translation is half the scaled height below the flipped, scaled centre `(height - Y)*scale + marginHeight/2` |
| `ScreenTransform.RotationStep` | simra/peer/peer.go:260-268 | the rotation step turns by `R` about `(W*scale/2, H*scale/2)` and translates back by exactly the negated pivot |
| `ScreenTransform.PlacementOf` | simra/peer/peer.go:253-272 | the transform targets the slot's node, scales by `(W*scale, H*scale)` and has a rotation step iff `R != 0` |
| `ScreenTransform.PlacementCentre` | simra/peer/peer.go:257-271 | the centre of the drawn sprite is `(X*scale + marginWidth/2, (height - Y)*scale + marginHeight/2)`: scaled, Y flipped, half the margin added |
| `ScreenTransform.RotationAboutCentre` | simra/peer/peer.go:260-268 | a rotation step is present iff `R != 0`; it rotates by `R` about `(W*scale/2, H*scale/2)`, the centre of the scaled sprite, and its back-translation is the exact negative |
| `ScreenTransform.CentreRoundTrip` | simra/peer/peer.go:257-259 | for a nonzero scale, undoing margin, scale and Y flip on the device centre gives back the sprite's virtual centre |
| `ScreenTransform.HalfScaleExample` | simra/peer/peer.go:257-271 | scale 0.5, virtual height 1920, no margins: a 100x100 sprite at (540, 960) gets translation (245, 455), no rotation, scale (50, 50), and its drawn centre is (270, 480) |
| `ScreenTransform.DrawnSlots` | simra/peer/peer.go:247-251 | the slots drawn are no more than the pool holds, and each one is a pool slot with a sprite and in use |
| `ScreenTransform.DrawnSlotsIsSubsequence` | simra/peer/peer.go:247-251 | the slots drawn keep pool order |
| `ScreenTransform.DrawnSlotsCount` | simra/peer/peer.go:247-251 | every slot with a sprite that is in use is drawn as often as it occurs; no other slot is drawn |
| `ScreenTransform.Placements` | simra/peer/peer.go:247-273 | one transform per drawn slot, in pool order, on that slot's node, with the parameters of its sprite's pose |
| `ScreenTransform.Apply` | simra/peer/peer.go:243-274 | the loop, skipping slots without a sprite or not in use, issues exactly `Placements(slots, pose, screen)` |

## Left out

- The engine's collaborators are not modelled beyond the order in which they are called: the GL peer (`Reset`, `Finalize`), the touch peer, the sprite container's `RemoveSprites` and `Initialize`, and the animation sprite `SetScene` adds. `calls` records each of them by name only.
- `Driver.Initialize`, `Driver.Drive` and `CollisionListener.OnCollision` are the host's code. Their own effects (moving sprites, registering sprites, touch listeners or collision listeners, removing colliders) are not modelled: `calls` records `Initialize(d)`, `Drive(d)` and `OnCollision(...)` by name only. A scene's `Initialize` typically registers its collision listeners (examples/sample3/scene/stage1.go:77-78), so after a real `SetScene` the list may hold entries the model does not add. The boxes the check reads are a parameter `xywh`, taken as the positions after `Drive`.
- `Collider.GetXYWH` is not part of this model. It is the parameter `xywh`, a total function from collider to box.
- Engine.Simra.CollisionCheckAndNotify: a registration made with a nil listener would make the Go call panic. The model records the call with `NoListener` instead.
- `Start`, `SetDesiredScreenSize`, `AddTouchListener`, `RemoveTouchListener`, `GetInstance`, `comapLength`, `LogDebug` and `LogError` are not modelled: they start the platform loop, forward to the touch and screen-size peers, manage the singleton, or log.
- The engine's `AddSprite` and `RemoveSprite` wrappers forward to the sprite container, which is modelled. The wrapper's clearing of the sprite's texture is not.
- The `SpriteContainer` implementation is not part of this model; its behaviour is taken from its tests. Two assumptions are made: the first free slot (the lowest index) is reused, and a new slot's renderer node is its index. The texture and arranger arguments of `AddSprite` are not modelled, and neither are the container's scene-graph calls to the renderer (`NewNode`, `SetSubTex`, `AppendChild`, `RemoveChild`).
- The touch peer and the screen-size peer are not modelled, so neither is touch dispatch. `ToVirtual` is only a reference inverse for the placement formulas.
- ScreenTransform.PlacementCentre: arithmetic is over `real`, so float32 rounding is not modelled. The affine matrix semantics of `Translate`, `Rotate` and `Scale` are not modelled either; each transform is recorded by its parameters.
- Engine.Simra.FirstCollision: coordinates are unbounded integers. Go's `int` is 32 bits on 32-bit ARM targets, where `x1 + w1/2` or `x2 - w2/2` can wrap around and flip a comparison; the model does not capture that.
- Engine.Simra.CollisionCheckAndNotify: a nil collider, which makes `GetXYWH` panic, is not modelled; every `ColliderId` names a collider and `xywh` is total.
- Engine.Simra.SetScene: the collision registrations, sprites and touch listeners the new driver's `Initialize` adds are not modelled; the model's `SetScene` keeps `comap` exactly. A nil driver is not modelled either (`DriverId` cannot be nil). Go stores the nil driver and then panics at `driver.Initialize()`.
- Concurrency is not modelled: `glPeerMutex`, and the unguarded shared list marked "TODO: exclusive controll" in the source.
- Audio playback, texture loading, text rasterisation, GL context setup and the older `peer/peer.go` are I/O and platform plumbing.

=== FILE: collision.dfy ===
/**
 * The collision registry of simra/engine.go: registrations of collider pairs,
 * the filter that removes them, and the per-tick corner-in-box test that picks
 * the first registration whose colliders touch.
 */
module Collision {
  import opened Common

  /** Identity of a collider (the Go interface value that `!=` compares). */
  type ColliderId = nat

  /** A collision listener; `NoListener` is the nil interface value. */
  datatype Listener = NoListener | ListenerRef(id: nat)

  /** What `Collider.GetXYWH` reports: centre and size, all Go `int`s. */
  datatype Rect = Rect(x: int, y: int, w: int, h: int)

  /** The engine's `point` struct. */
  datatype Point = Point(x: int, y: int)

  /** Go's `a / 2` on `int`, which truncates toward zero. */
  function Half(a: int): (r: int)
    ensures a >= 0 ==> 0 <= r && a - 1 <= 2 * r <= a
    ensures a < 0 ==> r <= 0 && a <= 2 * r <= a + 1
  {
    if a >= 0 then a / 2 else -((-a) / 2)
  }

  /** The four corners p1..p4 the check computes, in the order it tests them. */
  function Corners(b: Rect): (ps: seq<Point>)
    ensures |ps| == 4
  {
    [ Point(b.x - Half(b.w), b.y + Half(b.h)),
      Point(b.x + Half(b.w), b.y + Half(b.h)),
      Point(b.x - Half(b.w), b.y - Half(b.h)),
      Point(b.x + Half(b.w), b.y - Half(b.h)) ]
  }

  /** `v` lies in the closed interval `[centre - size/2, centre + size/2]`. */
  predicate InSpan(v: int, centre: int, size: int)
  {
    centre - Half(size) <= v <= centre + Half(size)
  }

  /** `p` lies in the closed box of `b`. */
  predicate Contains(b: Rect, p: Point)
  {
    InSpan(p.x, b.x, b.w) && InSpan(p.y, b.y, b.h)
  }

  /** The collision predicate: some corner of `a` lies in the box of `b`. */
  predicate Collides(a: Rect, b: Rect)
  {
    exists p :: p in Corners(a) && Contains(b, p)
  }

  function Abs(a: int): (r: nat)
  {
    if a < 0 then -a else a
  }

  /**
   * With Go's halving, the span of a size that is not negative holds exactly the
   * integers within half the size of the centre; a size below -1 spans nothing.
   */
  lemma SpanIsHalfSize(v: int, centre: int, size: int)
    ensures size >= 0 ==> (InSpan(v, centre, size) <==> 2 * Abs(v - centre) <= size)
    ensures size < -1 ==> !InSpan(v, centre, size)
  {
  }

  /** A box of non-negative size holds exactly the points within half its size on each axis. */
  lemma BoxIsHalfSize(b: Rect, p: Point)
    requires b.w >= 0 && b.h >= 0
    ensures Contains(b, p) <==> 2 * Abs(p.x - b.x) <= b.w && 2 * Abs(p.y - b.y) <= b.h
  {
    SpanIsHalfSize(p.x, b.x, b.w);
    SpanIsHalfSize(p.y, b.y, b.h);
  }

  /**
   * The corners are the four combinations of the two x-edges and the two
   * y-edges, and a box of non-negative size contains its own corners.
   */
  lemma CornersOfBox(b: Rect)
    ensures forall p :: p in Corners(b) ==>
              (p.x == b.x - Half(b.w) || p.x == b.x + Half(b.w)) &&
              (p.y == b.y - Half(b.h) || p.y == b.y + Half(b.h))
    ensures b.w >= 0 && b.h >= 0 ==> forall p :: p in Corners(b) ==> Contains(b, p)
  {
  }

  /**
   * A first collider of width and height between -1 and 1 halves to a single
   * point, its centre: it collides exactly when that centre lies in the box.
   */
  lemma PointColliderCollides(a: Rect, b: Rect)
    requires -1 <= a.w <= 1 && -1 <= a.h <= 1
    ensures Collides(a, b) <==> Contains(b, Point(a.x, a.y))
  {
    assert Point(a.x, a.y) in Corners(a);
  }

  /** The corner test factors into one test per axis. */
  lemma CollidesIffAxes(a: Rect, b: Rect)
    ensures Collides(a, b) <==>
              (InSpan(a.x - Half(a.w), b.x, b.w) || InSpan(a.x + Half(a.w), b.x, b.w)) &&
              (InSpan(a.y - Half(a.h), b.y, b.h) || InSpan(a.y + Half(a.h), b.y, b.h))
  {
    var cs := Corners(a);
    var left, right := a.x - Half(a.w), a.x + Half(a.w);
    var low, high := a.y - Half(a.h), a.y + Half(a.h);
    if (InSpan(left, b.x, b.w) || InSpan(right, b.x, b.w)) &&
       (InSpan(low, b.y, b.h) || InSpan(high, b.y, b.h)) {
      var px := if InSpan(left, b.x, b.w) then left else right;
      var py := if InSpan(high, b.y, b.h) then high else low;
      assert Point(px, py) in cs;
      assert Contains(b, Point(px, py));
    }
  }

  /** Two boxes sharing a corner region: [0,10]x[0,10] against [5,15]x[5,15]. */
  lemma OverlappingBoxesCollide()
    ensures Collides(Rect(5, 5, 10, 10), Rect(10, 10, 10, 10))
  {
    assert Point(10, 10) in Corners(Rect(5, 5, 10, 10));
  }

  /** Disjoint boxes: [0,10]x[0,10] against [20,30]x[20,30]. */
  lemma DisjointBoxesDoNotCollide()
    ensures !Collides(Rect(5, 5, 10, 10), Rect(25, 25, 10, 10))
  {
  }

  /**
   * Only the first collider's corners are tested: a small box inside a large one
   * collides with it, but not the other way round.
   */
  lemma CollisionIsAsymmetric()
    ensures Collides(Rect(0, 0, 2, 2), Rect(0, 0, 10, 10))
    ensures !Collides(Rect(0, 0, 10, 10), Rect(0, 0, 2, 2))
  {
    assert Point(-1, 1) in Corners(Rect(0, 0, 2, 2));
    CollidesIffAxes(Rect(0, 0, 10, 10), Rect(0, 0, 2, 2));
  }

  /**
   * Go's integer halving drops the odd unit: the corners of a 3x3 box centred
   * at the origin are (+-1, +-1), not (+-1.5, +-1.5). So it touches a point at
   * (1, 1), and misses the 1x1 box at (2, 2) that exact halving would reach.
   */
  lemma OddSizeTruncates()
    ensures Collides(Rect(0, 0, 3, 3), Rect(1, 1, 0, 0))
    ensures !Collides(Rect(0, 0, 3, 3), Rect(2, 2, 1, 1))
  {
    assert Point(1, 1) in Corners(Rect(0, 0, 3, 3));
    CollidesIffAxes(Rect(0, 0, 3, 3), Rect(2, 2, 1, 1));
  }

  /** A registration `collisionMap{c1, c2, listener}`; its identity is the Go pointer. */
  class CollisionMap {
    const c1: ColliderId
    const c2: ColliderId
    const listener: Listener

    constructor (c1: ColliderId, c2: ColliderId, listener: Listener)
      ensures this.c1 == c1 && this.c2 == c2 && this.listener == listener
    {
      this.c1 := c1;
      this.c2 := c2;
      this.listener := listener;
    }
  }

  /**
   * The predicate of removeCollisionMap: `v` survives removal of record `c`.
   * Sharing the first collider, sharing the second, or being `c` itself: each
   * one alone drops the entry.
   */
  function Kept(v: CollisionMap, c: CollisionMap): (keep: bool)
    ensures v.c1 == c.c1 ==> !keep
    ensures v.c2 == c.c2 ==> !keep
    ensures v == c ==> !keep
  {
    c.c1 != v.c1 && c.c2 != v.c2 && v != c
  }

  /** What removeCollisionMap leaves in the list: the entries `Kept` selects, in order. */
  function Filtered(s: seq<CollisionMap>, c: CollisionMap): (r: seq<CollisionMap>)
    ensures |r| <= |s|
    ensures forall v :: v in r ==> v in s && Kept(v, c)
  {
    if s == [] then []
    else Filtered(s[..|s| - 1], c) + (if Kept(s[|s| - 1], c) then [s[|s| - 1]] else [])
  }

  /** The registrations that name neither collider `c1` first nor collider `c2` second, in order. */
  function WithoutColliders(s: seq<CollisionMap>, c1: ColliderId, c2: ColliderId): (r: seq<CollisionMap>)
    ensures |r| <= |s|
    ensures forall v :: v in r ==> v in s && v.c1 != c1 && v.c2 != c2
  {
    if s == [] then []
    else
      var v := s[|s| - 1];
      WithoutColliders(s[..|s| - 1], c1, c2) + (if v.c1 != c1 && v.c2 != c2 then [v] else [])
  }

  /** The filter keeps the surviving entries in their original order. */
  lemma {:induction false} FilteredIsSubsequence(s: seq<CollisionMap>, c: CollisionMap)
    ensures Subsequence(Filtered(s, c), s)
  {
    if s != [] {
      var init, last := s[..|s| - 1], s[|s| - 1];
      FilteredIsSubsequence(init, c);
      var r := Filtered(s, c);
      if !Kept(last, c) && r != [] {
        assert r == Filtered(init, c);
        assert r[|r| - 1] in r && r[|r| - 1] != last;
      }
    }
  }

  /** No surviving entry is lost or duplicated: each keeps its multiplicity, each dropped one has none. */
  lemma {:induction false} FilteredCount(s: seq<CollisionMap>, c: CollisionMap, v: CollisionMap)
    ensures multiset(Filtered(s, c))[v] == if Kept(v, c) then multiset(s)[v] else 0
  {
    if s != [] {
      var init, last := s[..|s| - 1], s[|s| - 1];
      FilteredCount(init, c, v);
      assert s == init + [last];
    }
  }

  /** The registrations kept by the collider filter stay in order. */
  lemma {:induction false} WithoutCollidersIsSubsequence(s: seq<CollisionMap>, c1: ColliderId, c2: ColliderId)
    ensures Subsequence(WithoutColliders(s, c1, c2), s)
  {
    if s != [] {
      var init, last := s[..|s| - 1], s[|s| - 1];
      WithoutCollidersIsSubsequence(init, c1, c2);
      var r := WithoutColliders(s, c1, c2);
      if !(last.c1 != c1 && last.c2 != c2) && r != [] {
        assert r == WithoutColliders(init, c1, c2);
        assert r[|r| - 1] in r && r[|r| - 1] != last;
      }
    }
  }

  /** Exactly the registrations sharing neither collider survive, each as often as before. */
  lemma {:induction false} WithoutCollidersCount(s: seq<CollisionMap>, c1: ColliderId, c2: ColliderId, v: CollisionMap)
    ensures multiset(WithoutColliders(s, c1, c2))[v] ==
              if v.c1 != c1 && v.c2 != c2 then multiset(s)[v] else 0
  {
    if s != [] {
      var init, last := s[..|s| - 1], s[|s| - 1];
      WithoutCollidersCount(init, c1, c2, v);
      assert s == init + [last];
    }
  }

  /** Filtering by a record that is not registered is filtering by its two colliders alone. */
  lemma {:induction false} FilteredByFreshRecord(s: seq<CollisionMap>, c: CollisionMap)
    requires c !in s
    ensures Filtered(s, c) == WithoutColliders(s, c.c1, c.c2)
  {
    if s != [] {
      FilteredByFreshRecord(s[..|s| - 1], c);
      assert s[|s| - 1] in s;
    }
  }

  /**
   * Removing the pair (a, b) also drops a registration (a, x) with x != b: every
   * entry sharing the first collider, or the second, goes.
   */
  lemma RemovalDropsSharedFirstCollider(m1: CollisionMap, m2: CollisionMap, a: ColliderId, b: ColliderId)
    requires m1.c1 == a && m1.c2 == b
    requires m2.c1 == a && m2.c2 != b
    ensures WithoutColliders([m1, m2], a, b) == []
  {
  }

  /** Registration `v` fires on this tick. */
  predicate Hits(v: CollisionMap, xywh: ColliderId -> Rect)
  {
    Collides(xywh(v.c1), xywh(v.c2))
  }

  /** The index of the first registration in list order that fires, if any. */
  function FirstHit(s: seq<CollisionMap>, xywh: ColliderId -> Rect): (r: Option<nat>)
    ensures r.Some? ==> r.value < |s| && Hits(s[r.value], xywh)
    ensures r.Some? ==> forall j :: 0 <= j < r.value ==> !Hits(s[j], xywh)
    ensures r.None? ==> forall j :: 0 <= j < |s| ==> !Hits(s[j], xywh)
  {
    if s == [] then None
    else if Hits(s[0], xywh) then Some(0)
    else match FirstHit(s[1..], xywh)
      case None => None
      case Some(i) => Some(i + 1)
  }

  /**
   * First-hit-only: with three registrations where the first and the third fire,
   * the first is chosen whatever the second does.
   */
  lemma FirstOfSeveralHitsWins(s: seq<CollisionMap>, xywh: ColliderId -> Rect)
    requires |s| == 3 && Hits(s[0], xywh) && Hits(s[2], xywh)
    ensures FirstHit(s, xywh) == Some(0)
  {
  }
}

=== FILE: common.dfy ===
/** Small value types shared by the engine modules. */
module Common {

  /** A value that may be absent (Go's nil pointer or nil interface). */
  datatype Option<+T> = None | Some(value: T)

  /** The outcome of an operation that returns a Go `error`. */
  datatype Result<+T, +E> = Success(value: T) | Failure(error: E)

  /** `r` is an order-preserving subsequence of `s` (matched greedily from the end). */
  predicate Subsequence<T(==)>(r: seq<T>, s: seq<T>)
    decreases |s|
  {
    if r == [] then true
    else if s == [] then false
    else if r[|r| - 1] == s[|s| - 1] then Subsequence(r[..|r| - 1], s[..|s| - 1])
    else Subsequence(r, s[..|s| - 1])
  }
}

=== FILE: engine.dfy ===
/**
 * The engine instance of simra/engine.go: the current scene driver, the list of
 * collision registrations and the per-tick sequence (drive, then check).
 * Calls the engine makes into code outside the model (the driver, listeners,
 * the renderer, the touch and sprite peers) are recorded, in order, in `calls`.
 */
module Engine {
  import opened Common
  import opened Collision

  /** Identity of a scene driver (a value implementing `Driver`). */
  type DriverId = nat

  /** A call the engine makes to a collaborator. */
  datatype Call =
    | ResetRenderer
    | RemoveAllTouchListeners
    | RemoveSprites
    | InitializeContainer
    | AddAnimationSprite
    | Initialize(driver: DriverId)
    | Drive(driver: DriverId)
    | OnCollision(listener: Listener, c1: ColliderId, c2: ColliderId)
    | FinalizeRenderer

  /** The calls a scene change makes: tear-down first, the new driver's `Initialize` once and last. */
  function SceneChangeCalls(d: DriverId): (cs: seq<Call>)
    ensures |cs| > 0 && cs[|cs| - 1] == Initialize(d)
    ensures forall k :: 0 <= k < |cs| - 1 ==> !cs[k].Initialize? && !cs[k].Drive?
    ensures forall k :: 0 <= k < |cs| ==> !cs[k].OnCollision?
  {
    [ResetRenderer, RemoveAllTouchListeners, RemoveSprites, InitializeContainer, AddAnimationSprite, Initialize(d)]
  }

  /** The listener call one collision check makes: none, or that of the first registration that fires. */
  function Notification(s: seq<CollisionMap>, xywh: ColliderId -> Rect): (cs: seq<Call>)
    ensures cs == [] <==> forall j :: 0 <= j < |s| ==> !Hits(s[j], xywh)
    ensures cs != [] ==>
              exists i :: 0 <= i < |s| && Hits(s[i], xywh) &&
                (forall j :: 0 <= j < i ==> !Hits(s[j], xywh)) &&
                cs == [OnCollision(s[i].listener, s[i].c1, s[i].c2)]
  {
    match FirstHit(s, xywh)
    case None => []
    case Some(i) => [OnCollision(s[i].listener, s[i].c1, s[i].c2)]
  }

  /** The calls one tick makes: `Drive` of the current driver if there is one, then the check. */
  function TickCalls(driver: Option<DriverId>, s: seq<CollisionMap>, xywh: ColliderId -> Rect): (cs: seq<Call>)
    ensures driver.Some? ==> |cs| > 0 && cs[0] == Drive(driver.value)
    ensures driver.None? ==> forall k :: 0 <= k < |cs| ==> !cs[k].Drive?
    ensures forall k :: 0 <= k < |cs| && cs[k].Drive? ==> k == 0 && driver == Some(cs[k].driver)
    ensures forall k :: 0 <= k < |cs| && cs[k].OnCollision? ==> k == |cs| - 1
    ensures (exists j :: 0 <= j < |s| && Hits(s[j], xywh)) <==> |cs| > 0 && cs[|cs| - 1].OnCollision?
    ensures |cs| <= 2
    ensures forall k :: 0 <= k < |cs| ==> cs[k].Drive? || cs[k].OnCollision?
  {
    (if driver.Some? then [Drive(driver.value)] else []) + Notification(s, xywh)
  }

  /** The `simra` instance together with the package-level `comap`. */
  class Simra {
    var driver: Option<DriverId>
    var comap: seq<CollisionMap>
    var calls: seq<Call>

    constructor ()
      ensures driver == None && comap == [] && calls == []
    {
      driver := None;
      comap := [];
      calls := [];
    }

    /** Appends a new registration; duplicates are not checked for. */
    method AddCollisionListener(c1: ColliderId, c2: ColliderId, listener: Listener)
      modifies this`comap
      ensures |comap| == |old(comap)| + 1 && comap[..|old(comap)|] == old(comap)
      ensures fresh(comap[|old(comap)|])
      ensures comap[|old(comap)|].c1 == c1 && comap[|old(comap)|].c2 == c2
      ensures comap[|old(comap)|].listener == listener
    {
      var m := new CollisionMap(c1, c2, listener);
      comap := comap + [m];
    }

    /** Rebuilds the list from the entries that share neither collider with `c` and are not `c`. */
    method RemoveCollisionMap(c: CollisionMap)
      modifies this`comap
      ensures comap == Filtered(old(comap), c)
    {
      var result: seq<CollisionMap> := [];
      for i := 0 to |comap|
        invariant result == Filtered(comap[..i], c)
      {
        var v := comap[i];
        if c.c1 != v.c1 && c.c2 != v.c2 && v != c {
          result := result + [v];
        }
        assert comap[..i + 1][..i] == comap[..i];
      }
      assert comap[..|comap|] == comap;
      comap := result;
    }

    /** Removes by a freshly built record: every registration naming `c1` first or `c2` second goes. */
    method RemoveCollisionListener(c1: ColliderId, c2: ColliderId)
      modifies this`comap
      ensures comap == WithoutColliders(old(comap), c1, c2)
    {
      var c := new CollisionMap(c1, c2, NoListener);
      assert c !in comap;
      FilteredByFreshRecord(comap, c);
      RemoveCollisionMap(c);
    }

    method RemoveAllCollisionListener()
      modifies this`comap
      ensures comap == []
    {
      comap := [];
    }

    /** The scan of the check: the first registration, in list order, one of whose first collider's corners lies in the second's box. */
    method FirstCollision(xywh: ColliderId -> Rect) returns (hit: Option<nat>)
      ensures hit.Some? ==> hit.value < |comap| && Hits(comap[hit.value], xywh)
      ensures hit.Some? ==> forall j :: 0 <= j < hit.value ==> !Hits(comap[j], xywh)
      ensures hit.None? ==> forall j :: 0 <= j < |comap| ==> !Hits(comap[j], xywh)
      ensures hit == FirstHit(comap, xywh)
    {
      for i := 0 to |comap|
        invariant forall j :: 0 <= j < i ==> !Hits(comap[j], xywh)
      {
        var v := comap[i];
        var r1, r2 := xywh(v.c1), xywh(v.c2);
        var x1, y1, w1, h1 := r1.x, r1.y, r1.w, r1.h;
        var x2, y2, w2, h2 := r2.x, r2.y, r2.w, r2.h;

        var p1 := Point(x1 - Half(w1), y1 + Half(h1));
        var p2 := Point(x1 + Half(w1), y1 + Half(h1));
        var p3 := Point(x1 - Half(w1), y1 - Half(h1));
        var p4 := Point(x1 + Half(w1), y1 - Half(h1));
        assert Corners(r1) == [p1, p2, p3, p4];

        if p1.x >= x2 - Half(w2) && p1.x <= x2 + Half(w2) && p1.y >= y2 - Half(h2) && p1.y <= y2 + Half(h2) {
          assert Contains(r2, p1);
          return Some(i);
        }
        if p2.x >= x2 - Half(w2) && p2.x <= x2 + Half(w2) && p2.y >= y2 - Half(h2) && p2.y <= y2 + Half(h2) {
          assert Contains(r2, p2);
          return Some(i);
        }
        if p3.x >= x2 - Half(w2) && p3.x <= x2 + Half(w2) && p3.y >= y2 - Half(h2) && p3.y <= y2 + Half(h2) {
          assert Contains(r2, p3);
          return Some(i);
        }
        if p4.x >= x2 - Half(w2) && p4.x <= x2 + Half(w2) && p4.y >= y2 - Half(h2) && p4.y <= y2 + Half(h2) {
          assert Contains(r2, p4);
          return Some(i);
        }
      }
      return None;
    }

    /** One check: calls the listener of the first registration that fires, with its two colliders. */
    method CollisionCheckAndNotify(xywh: ColliderId -> Rect)
      modifies this`calls
      ensures calls == old(calls) + Notification(comap, xywh)
    {
      var hit := FirstCollision(xywh);
      match hit {
        case None =>
        case Some(i) =>
          var v := comap[i];
          calls := calls + [OnCollision(v.listener, v.c1, v.c2)];
      }
    }

    /** One tick: the driver (if any) runs first, then the collision check, which runs regardless. */
    method OnUpdate(xywh: ColliderId -> Rect)
      modifies this`calls
      ensures calls == old(calls) + TickCalls(driver, comap, xywh)
    {
      if driver.Some? {
        calls := calls + [Drive(driver.value)];
      }
      CollisionCheckAndNotify(xywh);
    }

    method OnStopped()
      modifies this`driver, this`calls
      ensures driver == None
      ensures calls == old(calls) + [FinalizeRenderer]
    {
      driver := None;
      calls := calls + [FinalizeRenderer];
    }

    /** Installs `d` after tearing the previous scene down; the registrations are left as they are. */
    method SetScene(d: DriverId)
      modifies this`driver, this`calls
      ensures driver == Some(d)
      ensures calls == old(calls) + SceneChangeCalls(d)
    {
      calls := calls + [ResetRenderer, RemoveAllTouchListeners, RemoveSprites];
      driver := Some(d);
      calls := calls + [InitializeContainer, AddAnimationSprite];
      calls := calls + [Initialize(d)];
    }
  }

  /**
   * After a scene change from `d1` to `d2`, a tick drives `d2` first and never `d1`;
   * after the engine stops, a tick drives nobody but still checks collisions.
   */
  method SceneLifecycle(d1: DriverId, d2: DriverId, xywh: ColliderId -> Rect) returns (tick: seq<Call>, stopped: seq<Call>)
    requires d1 != d2
    ensures |tick| > 0 && tick[0] == Drive(d2) && Drive(d1) !in tick
    ensures Initialize(d1) !in tick && Initialize(d2) !in tick
    ensures forall k :: 0 <= k < |stopped| ==> !stopped[k].Drive?
    ensures |stopped| <= 1
  {
    var e := new Simra();
    e.SetScene(d1);
    e.SetScene(d2);
    var before := |e.calls|;
    e.OnUpdate(xywh);
    tick := e.calls[before..];
    e.OnStopped();
    before := |e.calls|;
    e.OnUpdate(xywh);
    stopped := e.calls[before..];
  }

  /** Registrations survive a scene change, and an unregistered pair never fires. */
  method RegistrationsAcrossScenes(a: ColliderId, b: ColliderId, l: Listener, d: DriverId, xywh: ColliderId -> Rect)
    returns (fired: seq<Call>, afterRemoval: seq<Call>)
    requires Collides(xywh(a), xywh(b))
    ensures fired == [Drive(d), OnCollision(l, a, b)]
    ensures afterRemoval == [Drive(d)]
  {
    var e := new Simra();
    e.AddCollisionListener(a, b, l);
    e.SetScene(d);
    var before := |e.calls|;
    e.OnUpdate(xywh);
    fired := e.calls[before..];
    e.RemoveCollisionListener(a, b);
    before := |e.calls|;
    e.OnUpdate(xywh);
    afterRemoval := e.calls[before..];
  }
}

=== FILE: spritepool.dfy ===
/**
 * The sprite container of simra/peer: a list of slots pairing a sprite with a
 * renderer node and an in-use flag. Adding reuses the first slot not in use
 * (keeping its node) or appends a new one; removing only clears the flag, so
 * the list never shrinks.
 */
module SpritePool {
  import opened Common

  /** Identity of a sprite (the `*Sprite` pointer). */
  type SpriteId = nat

  /** A renderer node handle. */
  type NodeId = nat

  /** An entry of `spriteNodePairs`. */
  datatype Slot = Slot(sprite: Option<SpriteId>, node: NodeId, inuse: bool)

  /** The error `AddSprite` returns for a sprite that is already in the pool. */
  datatype AddError = AlreadyAdded

  /** Sprite `s` holds a slot that is in use. */
  predicate Active(slots: seq<Slot>, s: SpriteId)
  {
    exists i :: 0 <= i < |slots| && slots[i].inuse && slots[i].sprite == Some(s)
  }

  /** The pool's invariant: no sprite holds two slots in use at once. */
  predicate Valid(slots: seq<Slot>)
  {
    forall i, j :: 0 <= i < j < |slots| && slots[i].inuse && slots[j].inuse ==> slots[i].sprite != slots[j].sprite
  }

  /** The first slot not in use, if any. */
  function FirstFree(slots: seq<Slot>): (r: Option<nat>)
    ensures r.Some? ==> r.value < |slots| && !slots[r.value].inuse
    ensures r.Some? ==> forall j :: 0 <= j < r.value ==> slots[j].inuse
    ensures r.None? ==> forall j :: 0 <= j < |slots| ==> slots[j].inuse
  {
    if slots == [] then None
    else if !slots[0].inuse then Some(0)
    else match FirstFree(slots[1..])
      case None => None
      case Some(i) => Some(i + 1)
  }

  /** The first in-use slot holding `s`, if any. */
  function FindActive(slots: seq<Slot>, s: SpriteId): (r: Option<nat>)
    ensures r.Some? ==> r.value < |slots| && slots[r.value].inuse && slots[r.value].sprite == Some(s)
    ensures r.Some? ==> forall j :: 0 <= j < r.value ==> !(slots[j].inuse && slots[j].sprite == Some(s))
    ensures r.None? <==> !Active(slots, s)
  {
    if slots == [] then None
    else if slots[0].inuse && slots[0].sprite == Some(s) then Some(0)
    else match FindActive(slots[1..], s)
      case None =>
        assert forall j :: 1 <= j < |slots| ==> slots[j] == slots[1..][j - 1];
        None
      case Some(i) => Some(i + 1)
  }

  /** The slot list after `AddSprite(s)`, or the error it returns. */
  function AddSlot(slots: seq<Slot>, s: SpriteId): (r: Result<seq<Slot>, AddError>)
    ensures r.Failure? <==> Active(slots, s)
    ensures r.Success? ==> Active(r.value, s) && |slots| <= |r.value| <= |slots| + 1
    ensures r.Success? ==> forall j :: 0 <= j < |slots| ==> r.value[j].node == slots[j].node
  {
    if FindActive(slots, s).Some? then Failure(AlreadyAdded)
    else match FirstFree(slots)
      case Some(i) =>
        var t := slots[i := Slot(Some(s), slots[i].node, true)];
        assert t[i].inuse && t[i].sprite == Some(s);
        Success(t)
      case None =>
        var t := slots + [Slot(Some(s), |slots|, true)];
        assert t[|slots|].inuse && t[|slots|].sprite == Some(s);
        Success(t)
  }

  /** The slot list after `RemoveSprite(s)`. */
  function RemoveSlot(slots: seq<Slot>, s: SpriteId): (r: seq<Slot>)
    ensures |r| == |slots|
    ensures forall j :: 0 <= j < |slots| ==> r[j].sprite == slots[j].sprite && r[j].node == slots[j].node
    ensures forall j :: 0 <= j < |slots| && r[j] != slots[j] ==>
              slots[j].inuse && slots[j].sprite == Some(s) && !r[j].inuse
    ensures forall j :: 0 <= j < |slots| && r[j] != slots[j] ==> FindActive(slots, s) == Some(j)
  {
    match FindActive(slots, s)
    case None => slots
    case Some(i) => slots[i := slots[i].(inuse := false)]
  }

  /** Adding a sprite that is already in use fails, and the pool is left as it was. */
  lemma AddDuplicateFails(slots: seq<Slot>, s: SpriteId)
    ensures AddSlot(slots, s).Failure? <==> Active(slots, s)
  {
  }

  /**
   * A successful add makes `s` active and grows the pool by one slot exactly
   * when no slot is free; otherwise the first free slot is taken over and its node kept.
   */
  lemma AddPlacesSprite(slots: seq<Slot>, s: SpriteId)
    requires !Active(slots, s)
    ensures AddSlot(slots, s).Success?
    ensures var t := AddSlot(slots, s).value;
      Active(t, s) &&
      |t| == (if exists j :: 0 <= j < |slots| && !slots[j].inuse then |slots| else |slots| + 1) &&
      forall j :: 0 <= j < |slots| ==> t[j].node == slots[j].node
    ensures var t := AddSlot(slots, s).value;
      forall j :: 0 <= j < |slots| && t[j] != slots[j] ==> !slots[j].inuse && FirstFree(slots) == Some(j)
  {
    var t := AddSlot(slots, s).value;
    match FirstFree(slots)
    case Some(i) =>
      assert t[i].inuse && t[i].sprite == Some(s);
    case None =>
      assert t[|slots|].inuse && t[|slots|].sprite == Some(s);
  }

  /** Under the pool's invariant, removing leaves the sprite without any slot in use. */
  lemma RemoveClearsFlag(slots: seq<Slot>, s: SpriteId)
    requires Valid(slots)
    ensures !Active(RemoveSlot(slots, s), s)
  {
  }

  /** Removing a sprite that is not in use is ignored. */
  lemma RemoveInactiveIsIgnored(slots: seq<Slot>, s: SpriteId)
    requires !Active(slots, s)
    ensures RemoveSlot(slots, s) == slots
  {
  }

  /** Adding keeps the pool's invariant. */
  lemma AddKeepsValid(slots: seq<Slot>, s: SpriteId)
    requires Valid(slots)
    ensures AddSlot(slots, s).Success? ==> Valid(AddSlot(slots, s).value)
  {
  }

  /** Removing keeps the pool's invariant. */
  lemma RemoveKeepsValid(slots: seq<Slot>, s: SpriteId)
    requires Valid(slots)
    ensures Valid(RemoveSlot(slots, s))
  {
  }

  /** A call on the pool. */
  datatype Op = AddOp(sprite: SpriteId) | RemoveOp(sprite: SpriteId)

  /** The pool after one call; a failed add leaves it as it was. */
  function Step(slots: seq<Slot>, op: Op): (next: seq<Slot>)
  {
    match op
    case AddOp(s) => (match AddSlot(slots, s) case Success(t) => t case Failure(_) => slots)
    case RemoveOp(s) => RemoveSlot(slots, s)
  }

  /** The pool after a sequence of calls. */
  function Run(slots: seq<Slot>, ops: seq<Op>): (last: seq<Slot>)
    decreases |ops|
  {
    if ops == [] then slots else Run(Step(slots, ops[0]), ops[1..])
  }

  /** Over any sequence of calls the pool never shrinks and every slot keeps its node. */
  lemma {:induction false} RunNeverShrinks(slots: seq<Slot>, ops: seq<Op>)
    ensures |Run(slots, ops)| >= |slots|
    ensures forall j :: 0 <= j < |slots| ==> Run(slots, ops)[j].node == slots[j].node
    decreases |ops|
  {
    if ops != [] {
      var next := Step(slots, ops[0]);
      assert |next| >= |slots| && forall j :: 0 <= j < |slots| ==> next[j].node == slots[j].node;
      RunNeverShrinks(next, ops[1..]);
    }
  }

  /** Over any sequence of calls no sprite ever holds two slots in use. */
  lemma {:induction false} RunKeepsValid(slots: seq<Slot>, ops: seq<Op>)
    requires Valid(slots)
    ensures Valid(Run(slots, ops))
    decreases |ops|
  {
    if ops != [] {
      match ops[0] {
        case AddOp(s) => AddKeepsValid(slots, s);
        case RemoveOp(s) => RemoveKeepsValid(slots, s);
      }
      RunKeepsValid(Step(slots, ops[0]), ops[1..]);
    }
  }

  /** `SpriteContainer`: its `spriteNodePairs`, updated in place. */
  class SpriteContainer {
    var slots: seq<Slot>

    constructor ()
      ensures slots == [] && Valid(slots)
    {
      slots := [];
    }

    /** Fails on a sprite already in use; otherwise reuses the first free slot or appends one. */
    method AddSprite(s: SpriteId) returns (err: Option<AddError>)
      requires Valid(slots)
      modifies this
      ensures Valid(slots)
      ensures err.Some? <==> AddSlot(old(slots), s).Failure?
      ensures err.Some? ==> err == Some(AlreadyAdded) && slots == old(slots)
      ensures err.None? ==> slots == AddSlot(old(slots), s).value
    {
      AddKeepsValid(slots, s);
      for i := 0 to |slots|
        invariant forall j :: 0 <= j < i ==> !(slots[j].inuse && slots[j].sprite == Some(s))
      {
        if slots[i].inuse && slots[i].sprite == Some(s) {
          return Some(AlreadyAdded);
        }
      }
      for i := 0 to |slots|
        invariant forall j :: 0 <= j < i ==> slots[j].inuse
      {
        if !slots[i].inuse {
          slots := slots[i := Slot(Some(s), slots[i].node, true)];
          return None;
        }
      }
      slots := slots + [Slot(Some(s), |slots|, true)];
      return None;
    }

    /** Clears the in-use flag of the slot `s` holds; a sprite not in use is ignored. */
    method RemoveSprite(s: SpriteId)
      requires Valid(slots)
      modifies this
      ensures Valid(slots)
      ensures slots == RemoveSlot(old(slots), s)
    {
      RemoveKeepsValid(slots, s);
      for i := 0 to |slots|
        invariant forall j :: 0 <= j < i ==> !(slots[j].inuse && slots[j].sprite == Some(s))
      {
        if slots[i].inuse && slots[i].sprite == Some(s) {
          slots := slots[i := slots[i].(inuse := false)];
          return;
        }
      }
    }
  }

  /** Add two sprites, remove both, add them again (reusing the slots), then add a third. */
  method AddAndRemoveSprite() returns (errs: seq<Option<AddError>>, sizes: seq<nat>)
    ensures errs == [None, None, None, None, None]
    ensures sizes == [1, 2, 2, 2, 2, 2, 3]
  {
    var sc := new SpriteContainer();
    var e1 := sc.AddSprite(1);
    var n1 := |sc.slots|;
    var e2 := sc.AddSprite(2);
    var n2 := |sc.slots|;
    sc.RemoveSprite(1);
    var n3 := |sc.slots|;
    sc.RemoveSprite(2);
    var n4 := |sc.slots|;
    assert sc.slots == [Slot(Some(1), 0, false), Slot(Some(2), 1, false)];
    var e3 := sc.AddSprite(1);
    var n5 := |sc.slots|;
    assert sc.slots == [Slot(Some(1), 0, true), Slot(Some(2), 1, false)];
    assert !Active(sc.slots, 2);
    assert FirstFree(sc.slots) == Some(1);
    var e4 := sc.AddSprite(2);
    var n6 := |sc.slots|;
    assert sc.slots == [Slot(Some(1), 0, true), Slot(Some(2), 1, true)];
    var e5 := sc.AddSprite(3);
    var n7 := |sc.slots|;
    errs := [e1, e2, e3, e4, e5];
    sizes := [n1, n2, n3, n4, n5, n6, n7];
  }

  /** Adding the same sprite twice: the second add fails and the pool keeps one slot. */
  method AddSpriteDuplicate() returns (first: Option<AddError>, second: Option<AddError>, size: nat)
    ensures first == None && second == Some(AlreadyAdded) && size == 1
  {
    var sc := new SpriteContainer();
    first := sc.AddSprite(1);
    second := sc.AddSprite(1);
    size := |sc.slots|;
  }

  /** Removing the same sprite twice: the second remove is ignored and the pool keeps one slot. */
  method RemoveSpriteDuplicate() returns (sizes: seq<nat>, active: bool)
    ensures sizes == [1, 1, 1] && !active
  {
    var sc := new SpriteContainer();
    var _ := sc.AddSprite(1);
    var n1 := |sc.slots|;
    sc.RemoveSprite(1);
    var n2 := |sc.slots|;
    sc.RemoveSprite(1);
    var n3 := |sc.slots|;
    sizes := [n1, n2, n3];
    active := sc.slots[0].inuse;
  }
}

=== FILE: transform.dfy ===
/**
 * The per-frame pass of `GLPeer.apply` (simra/peer/peer.go): for every slot of
 * the sprite container that holds a sprite and is in use, one `SetTransform`
 * on the slot's node, whose affine is built as translate, then (only for a
 * rotated sprite) rotate about the sprite's centre, then scale. The affine is
 * recorded by its parameters; arithmetic is over `real`.
 */
module ScreenTransform {
  import opened Common
  import opened SpritePool

  /** The fields of `desiredScreenSize` the pass reads; `height` is the virtual height. */
  datatype Screen = Screen(scale: real, height: real, marginWidth: real, marginHeight: real)

  /** A sprite's pose: centre `x, y`, size `w, h`, rotation `r`, in virtual units. */
  datatype Pose = Pose(x: real, y: real, w: real, h: real, r: real)

  /** The rotation step: translate by the pivot, rotate by `angle`, translate by `back`. */
  datatype Rotation = Rotation(pivotX: real, pivotY: real, angle: real, backX: real, backY: real)

  /** The parameters of one `SetTransform(node, affine)` call. */
  datatype Placement = Placement(node: NodeId, tx: real, ty: real, rotation: Option<Rotation>, sx: real, sy: real)

  /** The horizontal translation: left edge of the sprite in device units, shifted by half the margin. */
  function TranslateX(p: Pose, sc: Screen): (tx: real)
    ensures tx + p.w * sc.scale / 2.0 == p.x * sc.scale + sc.marginWidth / 2.0
  {
    p.x * sc.scale - p.w / 2.0 * sc.scale + sc.marginWidth / 2.0
  }

  /** The vertical translation, with the Y axis flipped against the virtual height. */
  function TranslateY(p: Pose, sc: Screen): (ty: real)
    ensures ty + p.h * sc.scale / 2.0 == (sc.height - p.y) * sc.scale + sc.marginHeight / 2.0
  {
    (sc.height - p.y) * sc.scale - p.h / 2.0 * sc.scale + sc.marginHeight / 2.0
  }

  /** The rotation step for a rotated sprite: pivot on half the scaled size, rotate by `r`, move back. */
  function RotationStep(p: Pose, sc: Screen): (rot: Rotation)
    ensures rot.angle == p.r
    ensures rot.pivotX == p.w * sc.scale / 2.0 && rot.pivotY == p.h * sc.scale / 2.0
    ensures rot.backX == -rot.pivotX && rot.backY == -rot.pivotY
  {
    Rotation(0.5 * p.w * sc.scale, 0.5 * p.h * sc.scale, p.r, -0.5 * p.w * sc.scale, -0.5 * p.h * sc.scale)
  }

  /** The transform issued for a sprite with pose `p` on `node`; only a rotated sprite gets a rotation step. */
  function PlacementOf(node: NodeId, p: Pose, sc: Screen): (q: Placement)
    ensures q.node == node
    ensures q.sx == p.w * sc.scale && q.sy == p.h * sc.scale
    ensures q.rotation.Some? <==> p.r != 0.0
  {
    var rotation := if p.r != 0.0 then Some(RotationStep(p, sc)) else None;
    Placement(node, TranslateX(p, sc), TranslateY(p, sc), rotation, p.w * sc.scale, p.h * sc.scale)
  }

  /** The centre of the drawn sprite in device units: its virtual centre scaled, Y flipped, margins halved. */
  lemma PlacementCentre(node: NodeId, p: Pose, sc: Screen)
    ensures var q := PlacementOf(node, p, sc);
      q.tx + q.sx / 2.0 == p.x * sc.scale + sc.marginWidth / 2.0 &&
      q.ty + q.sy / 2.0 == (sc.height - p.y) * sc.scale + sc.marginHeight / 2.0
  {
  }

  /** The rotation step pivots about the sprite's centre and its two translations cancel. */
  lemma RotationAboutCentre(node: NodeId, p: Pose, sc: Screen)
    ensures var q := PlacementOf(node, p, sc);
      (q.rotation.Some? <==> p.r != 0.0) &&
      (q.rotation.Some? ==>
         q.rotation.value.angle == p.r &&
         q.rotation.value.pivotX == q.sx / 2.0 && q.rotation.value.pivotY == q.sy / 2.0 &&
         q.rotation.value.backX == -q.rotation.value.pivotX &&
         q.rotation.value.backY == -q.rotation.value.pivotY)
  {
  }

  /** The device-to-virtual mapping a touch needs: undo margin, scale and the Y flip. */
  function ToVirtual(dx: real, dy: real, sc: Screen): (v: (real, real))
    requires sc.scale != 0.0
  {
    ((dx - sc.marginWidth / 2.0) / sc.scale, sc.height - (dy - sc.marginHeight / 2.0) / sc.scale)
  }

  /** Mapping the device centre of a drawn sprite back gives its virtual centre. */
  lemma CentreRoundTrip(node: NodeId, p: Pose, sc: Screen)
    requires sc.scale != 0.0
    ensures var q := PlacementOf(node, p, sc);
      ToVirtual(q.tx + q.sx / 2.0, q.ty + q.sy / 2.0, sc) == (p.x, p.y)
  {
    PlacementCentre(node, p, sc);
    var q := PlacementOf(node, p, sc);
    var ux, uy := q.tx + q.sx / 2.0 - sc.marginWidth / 2.0, q.ty + q.sy / 2.0 - sc.marginHeight / 2.0;
    assert ux == p.x * sc.scale && uy == (sc.height - p.y) * sc.scale;
    assert ux / sc.scale == p.x;
    assert uy / sc.scale == sc.height - p.y;
  }

  /**
   * A 1080x1920 virtual screen on a 540x960 device (scale 0.5, no margins): a
   * 100x100 sprite centred at (540, 960) is drawn 50x50, centred at (270, 480).
   */
  lemma HalfScaleExample(node: NodeId)
    ensures PlacementOf(node, Pose(540.0, 960.0, 100.0, 100.0, 0.0), Screen(0.5, 1920.0, 0.0, 0.0))
            == Placement(node, 245.0, 455.0, None, 50.0, 50.0)
    ensures var q := PlacementOf(node, Pose(540.0, 960.0, 100.0, 100.0, 0.0), Screen(0.5, 1920.0, 0.0, 0.0));
      q.tx + q.sx / 2.0 == 270.0 && q.ty + q.sy / 2.0 == 480.0
  {
  }

  /** A slot the pass draws: it holds a sprite and is in use. */
  predicate Drawn(slot: Slot)
  {
    slot.sprite.Some? && slot.inuse
  }

  /** The slots the pass draws, in pool order. */
  function DrawnSlots(slots: seq<Slot>): (d: seq<Slot>)
    ensures |d| <= |slots|
    ensures forall x :: x in d ==> x in slots && Drawn(x)
  {
    if slots == [] then []
    else DrawnSlots(slots[..|slots| - 1]) + (if Drawn(slots[|slots| - 1]) then [slots[|slots| - 1]] else [])
  }

  /** The drawn slots keep pool order. */
  lemma {:induction false} DrawnSlotsIsSubsequence(slots: seq<Slot>)
    ensures Subsequence(DrawnSlots(slots), slots)
  {
    if slots != [] {
      var init, last := slots[..|slots| - 1], slots[|slots| - 1];
      DrawnSlotsIsSubsequence(init);
      var d := DrawnSlots(slots);
      if !Drawn(last) && d != [] {
        assert d == DrawnSlots(init);
        assert d[|d| - 1] in d && d[|d| - 1] != last;
      }
    }
  }

  /** Every drawable slot is drawn as often as it occurs, and no other slot is. */
  lemma {:induction false} DrawnSlotsCount(slots: seq<Slot>, x: Slot)
    ensures multiset(DrawnSlots(slots))[x] == if Drawn(x) then multiset(slots)[x] else 0
  {
    if slots != [] {
      var init, last := slots[..|slots| - 1], slots[|slots| - 1];
      DrawnSlotsCount(init, x);
      assert slots == init + [last];
    }
  }

  /** The transforms of one pass: one per drawn slot, in pool order, on that slot's node. */
  function Placements(slots: seq<Slot>, pose: SpriteId -> Pose, sc: Screen): (r: seq<Placement>)
    ensures |r| == |DrawnSlots(slots)|
    ensures forall k :: 0 <= k < |r| ==>
              var slot := DrawnSlots(slots)[k];
              Drawn(slot) && r[k] == PlacementOf(slot.node, pose(slot.sprite.value), sc)
  {
    if slots == [] then []
    else
      var last := slots[|slots| - 1];
      Placements(slots[..|slots| - 1], pose, sc) +
        (if Drawn(last) then [PlacementOf(last.node, pose(last.sprite.value), sc)] else [])
  }

  /** `apply`: walks the container's slots, skipping those not drawn, and issues one transform per drawn slot. */
  method Apply(container: SpriteContainer, pose: SpriteId -> Pose, sc: Screen) returns (out: seq<Placement>)
    ensures out == Placements(container.slots, pose, sc)
  {
    var snpairs := container.slots;
    out := [];
    for i := 0 to |snpairs|
      invariant out == Placements(snpairs[..i], pose, sc)
    {
      var slot := snpairs[i];
      assert snpairs[..i + 1] == snpairs[..i] + [slot];
      if slot.sprite.None? || !slot.inuse {
        continue;
      }
      var p := pose(slot.sprite.value);
      var tx := TranslateX(p, sc);
      var ty := TranslateY(p, sc);
      var rotation: Option<Rotation> := None;
      if p.r != 0.0 {
        rotation := Some(RotationStep(p, sc));
      }
      var placement := Placement(slot.node, tx, ty, rotation, p.w * sc.scale, p.h * sc.scale);
      assert placement == PlacementOf(slot.node, p, sc);
      assert Placements(snpairs[..i + 1], pose, sc) == Placements(snpairs[..i], pose, sc) + [placement];
      out := out + [placement];
    }
    assert snpairs[..|snpairs|] == snpairs;
  }
}
